=== FILE: README.md ===
# restate dispatch core in Dafny

This project models the core of `restate`, a small Rust library for finite
state machines. The core is made of three parts.

- **The transition table** (`TransitionMap`). It is an association list with
  one node per source state. Each node lists `(event, target)` entries in
  insertion order. `get` and `get_mut` find an entry with a two-level
  equality scan. `insert` panics when the `(from, event)` pair is already
  present.
- **The staged transition `Builder`**. Zero-sized marker types lead it
  through `Build -> HasFrom -> CanBuild`. `into_transition` is offered only
  in the last stage.
- **The `Machine`**. It is configured in the `Build` phase with `on_next`,
  `on_transition` and `start`. It then consumes events with `send`. `send`
  returns the previous state, or `Done` / `InvalidTransition`. It runs the
  transition's action and then the global callback. A final transition
  latches `done`.

Files (one module each):

| file | module | models |
|---|---|---|
| `wrappers.dfy` | `Wrappers` | `Option` and `Result` |
| `contexts.dfy` | `Contexts` | `Context`, `ContextMut`, the action type, `TransitionError` |
| `transition_map.dfy` | `TransitionMaps` | `src/common/map.rs` |
| `transition.dfy` | `Transitions` | `src/blocking/transition.rs` |
| `machine.dfy` | `Machines` | `src/blocking/machine.rs` |
| `scenarios.dfy` | `Scenarios` | the unit tests and the documentation example of `machine.rs`, plus a final-transition scenario and an enumeration example |

How the Rust constructs are represented:

- **Panics.** The panic in `insert` becomes a `None` result. `Insert`
  requires the table invariant: source states are distinct, and every node
  is non-empty with distinct events. `Empty` establishes the invariant and
  `Insert` keeps it.
- **`get_mut`.** It returns the location `(node index, entry index)` of the
  entry. A lemma proves it agrees with `get`.
- **Typestate.** The marker type parameters (`Build`/`Ready` on the
  machine, `Build`/`HasFrom`/`CanBuild` on the builder) become a field.
  Each operation requires the stage its Rust `impl` block is written for.
  `on_next` and `on_transition` exist in Rust only while the callback type
  is still `()`. In the model they require `!hasCallback`.
- **Actions.** An action is a total function from its mutable view
  `ContextMut` to the new context.
- **Callbacks.** The global callback receives the context by shared
  reference, and the model treats it as leaving the context unchanged; what
  it does to its captured variables is not part of the machine's state.
  Every invocation of an action or of the callback is appended to the
  machine's `log`, with the view it received, in call order.

What `send` hands to callbacks: `state` is overwritten by
`std::mem::replace` before the action and the callback run. Both views
borrow `from` from that same slot (`src/blocking/machine.rs:248-271`). So
every view carries the *new* state as `from`, and `from == to`. The
model keeps this behaviour: `Machines.SendViewsSeeNewState` and
`Machines.SendViewsHideSource` state it. The documentation of `Context`
describes `from` as the state the transition starts from
(`src/blocking/context.rs:4-5`). The code is followed here.

## Model

| member | source | states |
|---|---|---|
| TransitionMaps.Empty | src/common/map.rs:26-28 | a new table is well formed and enumerates no states and no events |
| TransitionMaps.EmptyGet | src/common/map.rs:26-28 | a new table answers every lookup with `None` |
| TransitionMaps.Insert | src/common/map.rs:49-75 | insert fails (the panic) exactly when the `(from, event)` pair is already present; otherwise the table stays well formed and holds one more transition |
| TransitionMaps.InsertGetAt | src/common/map.rs:49-75 | after an insert, looking up the inserted pair gives the new target and every other lookup is unchanged |
| TransitionMaps.InsertGet | src/common/map.rs:49-75 | the same, for all pairs at once |
| TransitionMaps.InsertThenGet | src/common/map.rs:49-84 | inserting a pair that is absent succeeds and a `get` of that pair returns the inserted value |
| TransitionMaps.InsertStates | src/common/map.rs:49-75 | `states()` gains the source state at the end exactly when no node had it; otherwise it is unchanged |
| TransitionMaps.SpliceEvents | src/common/map.rs:117-133 | pushing an entry onto node `i` puts its event right after the old events of node `i` (which close the run of nodes `0..i`) and before the events of every later node |
| TransitionMaps.InsertEvents | src/common/map.rs:49-75 | when the source state has node `i`, `events()` after the insert is the events of nodes `0..i` (node `i`'s old events last), then the new event, then the events of the later nodes; for a new source state the event is appended at the end |
| TransitionMaps.Get | src/common/map.rs:77-84 | `get` is `None` exactly when no node for `from` holds an entry for `event`; when it is `Some(t)`, the table stores `(from, event) -> t` |
| TransitionMaps.MapsFunctional | src/common/map.rs:49-84 | in a well-formed table a `(from, event)` pair is stored with at most one target, so `get` answers without ambiguity |
| TransitionMaps.GetMut | src/common/map.rs:86-93 | `get_mut` returns a location (node, entry) whose node has source `s` and whose entry has event `e` |
| TransitionMaps.GetMutAgreesWithGet | src/common/map.rs:77-93 | `get_mut` finds an entry exactly when `get` does, and the entry it points at holds the value `get` returns |
| TransitionMaps.GetAt | src/common/map.rs:77-84 | in a well-formed table, `get` is the lookup in the one node whose source is `from` |
| TransitionMaps.GetAbsent | src/common/map.rs:77-84 | a state with no node answers every `get` with `None` |
| TransitionMaps.States | src/common/map.rs:37-41 | `states()` yields one source state per node, in insertion order, and in a well-formed table never repeats one |
| TransitionMaps.Events | src/common/map.rs:110-133 | `events()` yields one item per stored transition |
| TransitionMaps.EventsListed | src/common/map.rs:110-133 | an event is enumerated exactly when some state has a transition on it |
| TransitionMaps.InsertAllSucceeds | src/common/map.rs:49-75 | a sequence of inserts into a table completes without panicking exactly when its pairs are pairwise distinct and none is already in the table |
| TransitionMaps.InsertAllGet | src/common/map.rs:49-84 | after a sequence of inserts that completes, `get` returns for each pair the target of the insert that registered it, and the old answer for every other pair |
| Transitions.IntoTransition | src/blocking/transition.rs:133-142 | a builder in `CanBuild` converts without failing; the transition carries the builder's endpoints, event, final flag and action |
| Transitions.New | src/blocking/transition.rs:53-67 | `Builder::new(from, to, event)` is ready to build, not final, has no action |
| Transitions.When | src/blocking/transition.rs:69-79 | `when(event)` starts in `Build`, with no endpoints, not final, no action |
| Transitions.SelfTransition | src/blocking/transition.rs:81-87 | `self_transition(event, state)` builds `state --event--> state`, not final, no action |
| Transitions.From | src/blocking/transition.rs:89-99 | `from(state)` moves `Build` to `HasFrom`, sets the source and keeps event, final flag and action |
| Transitions.To | src/blocking/transition.rs:102-113 | `to(state)` moves `HasFrom` to `CanBuild`, keeps the source and builds the transition to `state` |
| Transitions.IsFinal | src/blocking/transition.rs:117-121 | `is_final()` marks the transition final and changes nothing else |
| Transitions.IsFinalIdempotent | src/blocking/transition.rs:117-121 | marking final twice is the same as once |
| Transitions.WithAction | src/blocking/transition.rs:123-130 | `action(f)` installs `f` and changes nothing else |
| Transitions.ApplyAllStaged | src/blocking/transition.rs:53-143 | a chain of builder calls that goes through keeps the builder's endpoints matching its stage, so the unwraps in `into_transition` cannot fail |
| Transitions.ApplyAllAccepts | src/blocking/transition.rs:53-131 | from a staged builder, a chain of calls goes through exactly when the marker types alone accept it (`from` in `Build`, `to` in `HasFrom`, `is_final` and `action` in `CanBuild`), and it ends in the stage they predict |
| Transitions.WhenFromTo | src/blocking/transition.rs:145-148 | the chain `when(e).from(a).to(b)` builds `a --e--> b`, not final, no action |
| Machines.WithContext | src/blocking/machine.rs:117-127 | `with_context(c)` is in `Build`, not started, not done, has no callback and an empty table, and holds `c` |
| Machines.New | src/blocking/machine.rs:105-115 | `new()` is the same with the unit context |
| Machines.OnNext | src/blocking/machine.rs:135-155 | `on_next` panics exactly when the pair is already registered; otherwise only the table changes, and it maps `(from, event)` to `Next { to, is_final, action }` |
| Machines.OnNextFrame | src/blocking/machine.rs:135-155 | `on_next` leaves every other pair of the table as it was |
| Machines.OnTransition | src/blocking/machine.rs:157-170 | `on_transition` installs the callback and keeps table, context and current state |
| Machines.Start | src/blocking/machine.rs:174-184 | `start(s)` makes the machine `Ready` in `s`, not done, with table, context and callback kept |
| Machines.Current | src/blocking/machine.rs:203-206 | on a ready machine the unwrap in `current()` cannot fail and returns the current state |
| Machines.States | src/blocking/machine.rs:193-196 | the machine's `states()` never repeats a state |
| Machines.StatesRegistered | src/blocking/machine.rs:193-196 | a state is enumerated exactly when some transition leaves it |
| Machines.Events | src/blocking/machine.rs:198-201 | the machine's `events()` yields one item per configured transition |
| Machines.Send | src/blocking/machine.rs:229-275 | `Done` exactly when the machine is done; `InvalidTransition` exactly when it is not done and no entry exists for `(current, event)`; on either error nothing changes; on success the previous state is returned, the machine moves to the entry's target and `done` becomes its final flag; table and callback never change; `done` never resets |
| Machines.SendWhenDone | src/blocking/machine.rs:230-232 | a finished machine refuses every event with `Done` and stays as it is |
| Machines.SendMiss | src/blocking/machine.rs:236-244 | without an entry, `send` returns `InvalidTransition` and changes nothing |
| Machines.SendHit | src/blocking/machine.rs:238-252 | on a hit, `send` returns the previous state, moves to the target and sets `done` to the final flag |
| Machines.SendHitContext | src/blocking/machine.rs:254-262 | on a hit, the context becomes what the action makes of its view, or stays when there is no action |
| Machines.SendHitInvocations | src/blocking/machine.rs:254-272 | on a hit, the action (if any) runs once, then the callback (if any) runs once, and the callback sees the context as the action left it |
| Machines.SendViewsSeeNewState | src/blocking/machine.rs:248-271 | every view handed out by a successful `send` has `from == to ==` the new state and the sent event |
| Machines.SendViewsHideSource | src/blocking/machine.rs:248-271 | when `send` leaves a state for a different one, no view reports the left state as `from` |
| Machines.DoneIsFinal | src/blocking/machine.rs:230-232 | once done, every later event in a run returns `Done` and the machine never changes |
| Machines.FinalTransitionLatches | src/blocking/machine.rs:250-252 | a hit on a final transition succeeds and every later event is refused with `Done` |
| Machines.SendCallbackCount | src/blocking/machine.rs:264-272 | one `send` calls the global callback once when it succeeds, and never when it fails |
| Machines.RunCallbackCount | src/blocking/machine.rs:264-272 | over a run, the callback is called exactly once per successful `send` |
| Scenarios.LightSwitchScenario | src/blocking/machine.rs:296-326 | `send_test`: `TurnOn` returns `Off`, `TurnOff` returns `On`, a second `TurnOff` fails and changes nothing |
| Scenarios.CounterRun | src/blocking/machine.rs:365-403 | each event of a run moves the counter context by one in its direction |
| Scenarios.CounterScenario | src/blocking/machine.rs:365-403 | `with_context_test`: three increments give 3, two decrements then give 1 |
| Scenarios.CounterRunOk | src/blocking/machine.rs:45-67 | every `send` through the counter succeeds, so the example's `unwrap()` calls cannot fail |
| Scenarios.CounterDocExample | src/blocking/machine.rs:45-67 | the documentation example: three increments and a decrement all succeed and leave the context at 2 |
| Scenarios.LoopingScenario | src/blocking/machine.rs:328-343 | `on_transition_test`: two sends succeed and call the callback twice |
| Scenarios.OnActionScenario | src/blocking/machine.rs:345-363 | `on_action_test`: two sends succeed and call the action twice |
| Scenarios.JobScenario | src/blocking/machine.rs:250-252 | after a final transition `is_done()` holds and even a configured event fails with `Done` |
| Scenarios.EventsRepeatAcrossStates | src/common/map.rs:96-133 | `events()` repeats an event registered under two states; `states()` lists each state once |

## Left out

- Debug and Display implementations (`machine.rs`, `transition.rs`, `error.rs`): formatting only.
- Lifetimes, `Box<dyn ...>`, the `Send` bound and `PhantomData`: they have no behaviour to model.
- `Default for Machine`: it is `new()`.
- The module wiring of `lib.rs` and `mod.rs` files, and the `OnAction`/`OnTransition` trait impls for closures and `()`. An action is a function, and "no action" is `None`.
- Machines.SendHitContext: an action is modelled as a function of its view alone, the same on every call. A Rust action is an `FnMut` called through `&mut` (`src/blocking/on_action.rs:6`, `src/blocking/machine.rs:255`), so what it writes into the context may depend on its own earlier calls; that history, and the change `send` makes to the boxed action stored in the table, are not modelled. The global callback is modelled as leaving the context unchanged. In Rust it receives `&Ctx` (`src/blocking/machine.rs:266-271`), so a context with interior mutability (a `Cell`, a `RefCell`) or one shared with the callback's captures (an `Rc<RefCell<_>>`, an `Arc<Mutex<_>>`) can be changed by it; that change is not modelled, and `SendHitContext`'s "the context stays when there is no action" holds only for contexts the callback cannot change through a shared reference. What the callback does to its other captured variables is outside the machine; the log records each of its calls instead.
- Iterator laziness: `states()` and `events()` are modelled as the sequences they would yield.
- Machines.Events: its contract gives the count of events and not their order. `TransitionMaps.InsertEvents` states where each registered event lands in the order, and `TransitionMaps.EventsListed` states the membership.
- Machines.GetContext and Machines.IsDone: plain accessors with no contract. `Machines.SendHitContext` and `Machines.SendHit` state what they return.
- `send` before `start`: the Rust typestate rules it out, so `Send` requires a `Ready` machine.
- The unit tests call `Builder::new(x).on(e).go_to(y)`, which the builder in `transition.rs` does not have. The scenarios use `Builder::new(from, to, event)` for the same transitions.
- The documentation example and `with_context_test` call `Builder::self_transition(Active, CountEvent::Increment)`, with the state first. `self_transition` in `transition.rs` takes `(event, state)`. `Scenarios.Counter` passes the event first, as the builder's signature requires.
- Scenarios.CounterRun: the counter context is `i32` in the example and the tests; the model uses unbounded `int`. `Scenarios.CounterRun` and `Scenarios.CounterRunOk` hold for every run in the model, but in Rust only while the context stays within `i32`: at `i32::MAX` the `+= 1` panics in a debug build and wraps in a release build (and likewise at `i32::MIN` for `-= 1`). The example and the tests stay far from those bounds.

=== FILE: contexts.dfy ===
/**
 The values handed to callbacks during a transition, and the two runtime
 error kinds of the dispatch engine.
 */
module Contexts {

  /** The read-only view passed to the machine-wide `on_transition` callback. */
  datatype Context<S, E, C> = Context(from: S, to: S, event: E, context: C)

  /**
   The view passed to a per-transition action. Rust lends the context as
   `&mut Ctx`; here the action receives the current value and returns the
   value the machine keeps afterwards.
   */
  datatype ContextMut<S, E, C> = ContextMut(from: S, to: S, event: E, context: C)

  /** A per-transition action: whatever it does to the context, as a total function. */
  type Action<!S, !E, !C> = ContextMut<S, E, C> -> C

  /** The two runtime failures of `send`. */
  datatype TransitionError = Done | InvalidTransition
}

=== FILE: machine.dfy ===
/**
 The dispatch engine. A machine is configured in the `Build` phase (table
 entries through `on_next`, at most one global callback through
 `on_transition`), started with an initial state, and then consumes events
 with `send`.

 Callbacks are modelled by their effect on the machine: an action is a
 function from its mutable view to the new context, the global callback
 leaves the context unchanged, and every callback invocation (action or
 global callback) is appended to `log`, in order.
 */
module Machines {
  import opened Wrappers
  import opened Contexts
  import TM = TransitionMaps
  import T = Transitions

  /** The typestate marker of the machine. */
  datatype Phase = Build | Ready

  /** What the table stores for one `(from, event)` pair. */
  datatype Next<!S, !E, !C> = Next(next: S, isFinal: bool, action: Option<Action<S, E, C>>)

  /** One callback invocation, as the callback received it. */
  datatype Invocation<S, E, C> =
    | ActionCall(view: ContextMut<S, E, C>)
    | CallbackCall(cx: Context<S, E, C>)

  datatype Machine<!S, !E, !C> = Machine(
    transitions: TM.TransitionMap<S, E, Next<S, E, C>>,
    current: Option<S>,
    done: bool,
    context: C,
    hasCallback: bool,
    log: seq<Invocation<S, E, C>>,
    phase: Phase)

  /**
   The lifecycle invariant: the table is well formed, a machine has a current
   state exactly when it is `Ready`, and a machine still being built has not
   finished nor called anything.
   */
  ghost predicate Valid<S, E, C>(m: Machine<S, E, C>) {
    && TM.Valid(m.transitions)
    && (m.phase == Ready <==> m.current.Some?)
    && (m.phase == Build ==> !m.done && m.log == [])
  }

  // ---------------------------------------------------------------------
  // Construction
  // ---------------------------------------------------------------------

  /** `Machine::with_context(context)`: empty table, not started, not done. */
  function WithContext<S(==), E(==), C>(context: C): (m: Machine<S, E, C>)
    ensures Valid(m) && m.phase == Build
    ensures m.current == None && !m.done && !m.hasCallback && m.log == []
    ensures m.context == context
    ensures TM.States(m.transitions) == [] && TM.Events(m.transitions) == []
  {
    Machine(TM.Empty(), None, false, context, false, [], Build)
  }

  /** `Machine::new()`: `with_context` with the unit context. */
  function New<S(==), E(==)>(): (m: Machine<S, E, ()>)
    ensures Valid(m) && m.phase == Build
    ensures m.current == None && !m.done && !m.hasCallback && m.log == []
    ensures TM.States(m.transitions) == [] && TM.Events(m.transitions) == []
  {
    WithContext(())
  }

  /** The table entry `on_next` stores for a transition. */
  function NextOf<S, E, C>(t: T.Transition<S, E, C>): Next<S, E, C> {
    Next(t.to, t.isFinal, t.action)
  }

  /**
   `on_next(transition)`: registers `(from, event) -> Next { to, is_final,
   action }`. `None` stands for the panic on a pair that is already taken.
   Rust offers it only while building and before `on_transition`.
   */
  function OnNext<S(==), E(==), C>(m: Machine<S, E, C>, b: T.Builder<S, E, C>): (r: Option<Machine<S, E, C>>)
    requires Valid(m) && m.phase == Build && !m.hasCallback
    requires b.stage == T.CanBuild && T.Staged(b)
    ensures r.None? <==> TM.Contains(m.transitions, b.from.value, b.event)
    ensures r.Some? ==> Valid(r.value) && r.value == m.(transitions := r.value.transitions)
    ensures r.Some? ==>
      TM.Get(r.value.transitions, b.event, b.from.value) == Some(Next(b.to.value, b.isFinal, b.action))
  {
    var t := T.IntoTransition(b);
    match TM.Insert(m.transitions, t.event, t.from, NextOf(t))
    case None => None
    case Some(table) =>
      TM.InsertThenGet(m.transitions, t.event, t.from, NextOf(t));
      Some(m.(transitions := table))
  }

  /** Registration leaves every other pair of the table as it was. */
  lemma OnNextFrame<S, E, C>(m: Machine<S, E, C>, b: T.Builder<S, E, C>, s: S, e: E)
    requires Valid(m) && m.phase == Build && !m.hasCallback
    requires b.stage == T.CanBuild && T.Staged(b)
    requires OnNext(m, b).Some?
    requires s != b.from.value || e != b.event
    ensures TM.Get(OnNext(m, b).value.transitions, e, s) == TM.Get(m.transitions, e, s)
  {
    var t := T.IntoTransition(b);
    TM.InsertGetAt(m.transitions, t.event, t.from, NextOf(t), s, e);
  }

  /** `on_transition(f)`: installs the global callback; nothing else changes. */
  function OnTransition<S(==), E(==), C>(m: Machine<S, E, C>): (r: Machine<S, E, C>)
    requires Valid(m) && m.phase == Build && !m.hasCallback
    ensures Valid(r) && r.phase == Build && r.hasCallback
    ensures r.transitions == m.transitions && r.context == m.context && r.current == m.current
  {
    Machine(m.transitions, m.current, false, m.context, true, m.log, Build)
  }

  /** `start(initial_state)`: the machine becomes `Ready` in `initial_state`. */
  function Start<S(==), E(==), C>(m: Machine<S, E, C>, initial: S): (r: Machine<S, E, C>)
    requires Valid(m) && m.phase == Build
    ensures Valid(r) && r.phase == Ready
    ensures r.current == Some(initial) && !r.done
    ensures r.transitions == m.transitions && r.context == m.context
    ensures r.hasCallback == m.hasCallback && r.log == m.log
  {
    Machine(m.transitions, Some(initial), false, m.context, m.hasCallback, m.log, Ready)
  }

  // ---------------------------------------------------------------------
  // Accessors of a ready machine
  // ---------------------------------------------------------------------

  /** `current()`: the unwrap cannot fail on a valid ready machine. */
  function Current<S(==), E(==), C>(m: Machine<S, E, C>): (s: S)
    requires Valid(m) && m.phase == Ready
    ensures m.current == Some(s)
  {
    m.current.value
  }

  /** `context()`. */
  function GetContext<S, E, C>(m: Machine<S, E, C>): C
    requires m.phase == Ready
  {
    m.context
  }

  /** `is_done()`. */
  function IsDone<S, E, C>(m: Machine<S, E, C>): bool
    requires m.phase == Ready
  {
    m.done
  }

  /** `states()`: the configured source states, each once. */
  function States<S(==), E(==), C>(m: Machine<S, E, C>): (r: seq<S>)
    requires Valid(m) && m.phase == Ready
    ensures TM.NoDuplicates(r)
  {
    TM.States(m.transitions)
  }

  /** A state is enumerated exactly when some transition leaves it. */
  lemma StatesRegistered<S, E, C>(m: Machine<S, E, C>)
    requires Valid(m)
    ensures forall s :: s in TM.States(m.transitions) <==> exists e: E :: TM.Contains(m.transitions, s, e)
  {
    var nodes := m.transitions.nodes;
    forall s | s in TM.States(m.transitions)
      ensures exists e: E :: TM.Contains(m.transitions, s, e)
    {
      var i :| 0 <= i < |nodes| && nodes[i].from == s;
      var e := nodes[i].next[0].event;
      assert TM.HasEvent(nodes[i].next, e);
      assert TM.Contains(m.transitions, s, e);
    }
  }

  /** `events()`: one event per configured transition. */
  function Events<S(==), E(==), C>(m: Machine<S, E, C>): (r: seq<E>)
    requires Valid(m) && m.phase == Ready
    ensures |r| == TM.Size(m.transitions.nodes)
  {
    TM.Events(m.transitions)
  }

  // ---------------------------------------------------------------------
  // send
  // ---------------------------------------------------------------------

  /**
   `send(event)`. A finished machine refuses with `Done`; an event with no
   entry for the current state is refused with `InvalidTransition`; in both
   cases nothing changes. Otherwise the current state is replaced by the
   target and the previous one is returned, a final transition latches
   `done`, then the action (if any) and the global callback (if any) run,
   in that order, once each. Both views borrow `from` from the state slot
   after it was overwritten, so they carry the new state as `from` too.
   */
  function Send<S(==), E(==), C>(m: Machine<S, E, C>, event: E)
    : (out: (Machine<S, E, C>, Result<S, TransitionError>))
    requires Valid(m) && m.phase == Ready
    ensures Valid(out.0) && out.0.phase == Ready
    ensures out.1 == Err(Done) <==> m.done
    ensures out.1 == Err(InvalidTransition) <==>
      !m.done && !TM.Contains(m.transitions, m.current.value, event)
    ensures out.1.Err? ==> out.0 == m
    ensures out.1.Ok? ==> Some(out.1.value) == m.current
    ensures out.1.Ok? ==>
      var hit := TM.Get(m.transitions, event, m.current.value);
      hit.Some? && out.0.current == Some(hit.value.next) && out.0.done == hit.value.isFinal
    ensures out.0.transitions == m.transitions && out.0.hasCallback == m.hasCallback
    ensures m.done ==> out.0.done
  {
    if m.done then (m, Err(Done))
    else
      var state := m.current.value;
      TM.GetMutAgreesWithGet(m.transitions, event, state);
      match TM.GetMut(m.transitions, event, state)
      case None => (m, Err(InvalidTransition))
      case Some(loc) =>
        var n := TM.At(m.transitions, loc);
        var slot := n.next;
        var done := if n.isFinal then true else m.done;
        var view := ContextMut(slot, n.next, event, m.context);
        var context := if n.action.Some? then n.action.value(view) else m.context;
        var actionCalls := if n.action.Some? then [ActionCall(view)] else [];
        var callbackCalls := if m.hasCallback then [CallbackCall(Context(slot, n.next, event, context))] else [];
        (m.(current := Some(slot), done := done, context := context, log := m.log + actionCalls + callbackCalls),
         Ok(state))
  }

  /** A finished machine refuses every event and stays as it is. */
  lemma SendWhenDone<S, E, C>(m: Machine<S, E, C>, event: E)
    requires Valid(m) && m.phase == Ready && m.done
    ensures Send(m, event) == (m, Err(Done))
  {
  }

  /** Without a table entry for `(current, event)`: `InvalidTransition`, nothing runs, nothing changes. */
  lemma SendMiss<S, E, C>(m: Machine<S, E, C>, event: E)
    requires Valid(m) && m.phase == Ready && !m.done
    requires TM.Get(m.transitions, event, m.current.value) == None
    ensures Send(m, event) == (m, Err(InvalidTransition))
  {
  }

  /**
   On a table hit `n`: the result is the previous state, the machine moves to
   `n.next`, `done` becomes `n.is_final`, and the table and callback stay.
   */
  lemma SendHit<S, E, C>(m: Machine<S, E, C>, event: E, n: Next<S, E, C>)
    requires Valid(m) && m.phase == Ready && !m.done
    requires TM.Get(m.transitions, event, m.current.value) == Some(n)
    ensures Send(m, event).1 == Ok(m.current.value)
    ensures Send(m, event).0.current == Some(n.next)
    ensures Send(m, event).0.done == n.isFinal
    ensures Send(m, event).0.transitions == m.transitions
    ensures Send(m, event).0.hasCallback == m.hasCallback
  {
    TM.GetMutAgreesWithGet(m.transitions, event, m.current.value);
  }

  /**
   On a table hit the context changes only through the action: it becomes
   what the action returns for the view it is given, or stays when there is
   no action (the no-op default).
   */
  lemma SendHitContext<S, E, C>(m: Machine<S, E, C>, event: E, n: Next<S, E, C>)
    requires Valid(m) && m.phase == Ready && !m.done
    requires TM.Get(m.transitions, event, m.current.value) == Some(n)
    ensures n.action.None? ==> Send(m, event).0.context == m.context
    ensures n.action.Some? ==>
      Send(m, event).0.context == n.action.value(ContextMut(n.next, n.next, event, m.context))
  {
    TM.GetMutAgreesWithGet(m.transitions, event, m.current.value);
  }

  /**
   On a table hit the log grows by the action call (if there is an action)
   followed by the global callback call (if one is installed), each once.
   */
  lemma SendHitInvocations<S, E, C>(m: Machine<S, E, C>, event: E, n: Next<S, E, C>)
    requires Valid(m) && m.phase == Ready && !m.done
    requires TM.Get(m.transitions, event, m.current.value) == Some(n)
    ensures var log := Send(m, event).0.log;
      && |log| == |m.log| + (if n.action.Some? then 1 else 0) + (if m.hasCallback then 1 else 0)
      && log[..|m.log|] == m.log
      && (n.action.Some? ==> log[|m.log|] == ActionCall(ContextMut(n.next, n.next, event, m.context)))
      && (m.hasCallback ==> log[|log| - 1].CallbackCall?)
      && (m.hasCallback ==> log[|log| - 1].cx.context == Send(m, event).0.context)
  {
    TM.GetMutAgreesWithGet(m.transitions, event, m.current.value);
  }

  /** The view a callback received carries `from`, `to` and `event`. */
  function ViewFrom<S, E, C>(i: Invocation<S, E, C>): S {
    match i
    case ActionCall(v) => v.from
    case CallbackCall(cx) => cx.from
  }

  function ViewTo<S, E, C>(i: Invocation<S, E, C>): S {
    match i
    case ActionCall(v) => v.to
    case CallbackCall(cx) => cx.to
  }

  function ViewEvent<S, E, C>(i: Invocation<S, E, C>): E {
    match i
    case ActionCall(v) => v.event
    case CallbackCall(cx) => cx.event
  }

  /**
   The `from` quirk: every view handed out by a successful `send` has
   `from == to ==` the new current state, never the state that was left.
   */
  lemma SendViewsSeeNewState<S, E, C>(m: Machine<S, E, C>, event: E)
    requires Valid(m) && m.phase == Ready
    requires Send(m, event).1.Ok?
    ensures forall k | |m.log| <= k < |Send(m, event).0.log| ::
      var i := Send(m, event).0.log[k];
      Some(ViewFrom(i)) == Send(m, event).0.current && ViewTo(i) == ViewFrom(i) && ViewEvent(i) == event
  {
    var state := m.current.value;
    var n := TM.At(m.transitions, TM.GetMut(m.transitions, event, state).value);
    var log := Send(m, event).0.log;
    forall k | |m.log| <= k < |log|
      ensures Some(ViewFrom(log[k])) == Send(m, event).0.current
      ensures ViewTo(log[k]) == ViewFrom(log[k]) && ViewEvent(log[k]) == event
    {
    }
  }

  /** The quirk made concrete: after leaving a state, no view reports it as `from` unless it is also the target. */
  lemma SendViewsHideSource<S, E, C>(m: Machine<S, E, C>, event: E)
    requires Valid(m) && m.phase == Ready
    requires Send(m, event).1.Ok? && Send(m, event).0.current != m.current
    ensures forall k | |m.log| <= k < |Send(m, event).0.log| ::
      Some(ViewFrom(Send(m, event).0.log[k])) != m.current
  {
    SendViewsSeeNewState(m, event);
  }

  // ---------------------------------------------------------------------
  // Runs of several events
  // ---------------------------------------------------------------------

  /** Sends the events one after the other, collecting every result. */
  function Run<S(==), E(==), C>(m: Machine<S, E, C>, events: seq<E>)
    : (out: (Machine<S, E, C>, seq<Result<S, TransitionError>>))
    requires Valid(m) && m.phase == Ready
    ensures Valid(out.0) && out.0.phase == Ready
    ensures |out.1| == |events|
    ensures out.0.transitions == m.transitions && out.0.hasCallback == m.hasCallback
    decreases |events|
  {
    if events == [] then (m, [])
    else
      var first := Send(m, events[0]);
      var rest := Run(first.0, events[1..]);
      (rest.0, [first.1] + rest.1)
  }

  /** Once `done` is latched, every later `send` returns `Done` and changes nothing. */
  lemma {:induction false} DoneIsFinal<S, E, C>(m: Machine<S, E, C>, events: seq<E>)
    requires Valid(m) && m.phase == Ready && m.done
    ensures Run(m, events).0 == m
    ensures forall k | 0 <= k < |events| :: Run(m, events).1[k] == Err(Done)
    decreases |events|
  {
    if events != [] {
      DoneIsFinal(m, events[1..]);
    }
  }

  /** A hit on a final transition ends the machine: every later event is refused with `Done`. */
  lemma FinalTransitionLatches<S, E, C>(m: Machine<S, E, C>, event: E, n: Next<S, E, C>, later: seq<E>)
    requires Valid(m) && m.phase == Ready && !m.done
    requires TM.Get(m.transitions, event, m.current.value) == Some(n) && n.isFinal
    ensures Send(m, event).1.Ok? && Send(m, event).0.done
    ensures forall k | 0 <= k < |later| :: Run(Send(m, event).0, later).1[k] == Err(Done)
  {
    SendHit(m, event, n);
    DoneIsFinal(Send(m, event).0, later);
  }

  function CountCallbacks<S, E, C>(log: seq<Invocation<S, E, C>>): nat {
    if log == [] then 0 else (if log[0].CallbackCall? then 1 else 0) + CountCallbacks(log[1..])
  }

  function CountOk<S, X>(results: seq<Result<S, X>>): nat {
    if results == [] then 0 else (if results[0].Ok? then 1 else 0) + CountOk(results[1..])
  }

  lemma {:induction false} CountCallbacksAppend<S, E, C>(a: seq<Invocation<S, E, C>>, b: seq<Invocation<S, E, C>>)
    ensures CountCallbacks(a + b) == CountCallbacks(a) + CountCallbacks(b)
  {
    if a == [] {
      assert a + b == b;
    } else {
      assert (a + b)[1..] == a[1..] + b;
      CountCallbacksAppend(a[1..], b);
    }
  }

  /** One `send` calls the global callback once if it succeeds and never if it fails. */
  lemma SendCallbackCount<S, E, C>(m: Machine<S, E, C>, event: E)
    requires Valid(m) && m.phase == Ready
    ensures CountCallbacks(Send(m, event).0.log) ==
      CountCallbacks(m.log) + (if m.hasCallback && Send(m, event).1.Ok? then 1 else 0)
  {
    if Send(m, event).1.Ok? {
      var state := m.current.value;
      var n := TM.At(m.transitions, TM.GetMut(m.transitions, event, state).value);
      var view := ContextMut(n.next, n.next, event, m.context);
      var actionCalls: seq<Invocation<S, E, C>> := if n.action.Some? then [ActionCall(view)] else [];
      var log := Send(m, event).0.log;
      var tail := log[|m.log| + |actionCalls|..];
      assert log == m.log + actionCalls + tail;
      CountCallbacksAppend(m.log + actionCalls, tail);
      CountCallbacksAppend(m.log, actionCalls);
      assert CountCallbacks(actionCalls) == 0 by {
        if actionCalls != [] { assert actionCalls[1..] == []; }
      }
      assert CountCallbacks(tail) == if m.hasCallback then 1 else 0 by {
        if tail != [] { assert tail[1..] == []; }
      }
    }
  }

  /**
   Over a whole run, the global callback is called exactly once per
   successful `send` (and not at all without one installed).
   */
  lemma {:induction false} RunCallbackCount<S, E, C>(m: Machine<S, E, C>, events: seq<E>)
    requires Valid(m) && m.phase == Ready
    ensures CountCallbacks(Run(m, events).0.log) ==
      CountCallbacks(m.log) + (if m.hasCallback then CountOk(Run(m, events).1) else 0)
    decreases |events|
  {
    if events != [] {
      var first := Send(m, events[0]);
      SendCallbackCount(m, events[0]);
      RunCallbackCount(first.0, events[1..]);
      var results := Run(m, events).1;
      assert results[1..] == Run(first.0, events[1..]).1;
    }
  }
}

=== FILE: scenarios.dfy ===
/**
 The behaviours the library's own unit tests and documentation example
 exercise, plus a final-transition scenario and an enumeration example,
 stated over concrete machines.
 */
module Scenarios {
  import opened Wrappers
  import opened Contexts
  import TM = TransitionMaps
  import T = Transitions
  import opened Machines

  // ---------------------------------------------------------------------
  // A light switch: Off --TurnOn--> On --TurnOff--> Off
  // ---------------------------------------------------------------------

  datatype Light = On | Off
  datatype LightEvent = TurnOn | TurnOff

  /** `Machine::new().on_next(Off -TurnOn-> On).on_next(On -TurnOff-> Off).start(Off)`. */
  function LightSwitch(): (m: Machine<Light, LightEvent, ()>)
    ensures Valid(m) && m.phase == Ready && m.current == Some(Off) && !m.done
    ensures TM.Get(m.transitions, TurnOn, Off) == Some(Next(On, false, None))
    ensures TM.Get(m.transitions, TurnOff, On) == Some(Next(Off, false, None))
    ensures TM.Get(m.transitions, TurnOff, Off) == None
  {
    var m0 := New<Light, LightEvent>();
    TM.EmptyGet<Light, LightEvent, Next<Light, LightEvent, ()>>();
    var b1 := T.New<Light, LightEvent, ()>(Off, On, TurnOn);
    var m1 := OnNext(m0, b1).value;
    var b2 := T.New<Light, LightEvent, ()>(On, Off, TurnOff);
    OnNextFrame(m0, b1, On, TurnOff);
    OnNextFrame(m0, b1, Off, TurnOff);
    var m2 := OnNext(m1, b2).value;
    OnNextFrame(m1, b2, Off, TurnOn);
    OnNextFrame(m1, b2, Off, TurnOff);
    Start(m2, Off)
  }

  /** `send_test`: `TurnOn` gives `Ok(Off)`, `TurnOff` gives `Ok(On)`, a second `TurnOff` fails. */
  lemma LightSwitchScenario()
    ensures var (m1, r1) := Send(LightSwitch(), TurnOn);
      && r1 == Ok(Off) && m1.current == Some(On)
      && var (m2, r2) := Send(m1, TurnOff);
      && r2 == Ok(On) && m2.current == Some(Off)
      && var (m3, r3) := Send(m2, TurnOff);
      && r3 == Err(InvalidTransition) && m3 == m2
  {
    var m0 := LightSwitch();
    SendHit(m0, TurnOn, Next(On, false, None));
    var m1 := Send(m0, TurnOn).0;
    SendHit(m1, TurnOff, Next(Off, false, None));
    var m2 := Send(m1, TurnOff).0;
    SendMiss(m2, TurnOff);
  }

  // ---------------------------------------------------------------------
  // A counter: self-transitions whose actions change an integer context
  // ---------------------------------------------------------------------

  datatype Active = Active
  datatype CountEvent = Increment | Decrement

  function Inc(cx: ContextMut<Active, CountEvent, int>): int {
    cx.context + 1
  }

  function Dec(cx: ContextMut<Active, CountEvent, int>): int {
    cx.context - 1
  }

  /** `Machine::with_context(0)` with an incrementing and a decrementing self-transition. */
  function Counter(): (m: Machine<Active, CountEvent, int>)
    ensures Valid(m) && m.phase == Ready && m.current == Some(Active) && !m.done && m.context == 0
    ensures TM.Get(m.transitions, Increment, Active) == Some(Next(Active, false, Some(Inc)))
    ensures TM.Get(m.transitions, Decrement, Active) == Some(Next(Active, false, Some(Dec)))
  {
    var m0 := WithContext<Active, CountEvent, int>(0);
    TM.EmptyGet<Active, CountEvent, Next<Active, CountEvent, int>>();
    var b1 := T.WithAction(T.SelfTransition<Active, CountEvent, int>(Increment, Active), Inc);
    var m1 := OnNext(m0, b1).value;
    var b2 := T.WithAction(T.SelfTransition<Active, CountEvent, int>(Decrement, Active), Dec);
    OnNextFrame(m0, b1, Active, Decrement);
    var m2 := OnNext(m1, b2).value;
    OnNextFrame(m1, b2, Active, Increment);
    Start(m2, Active)
  }

  /** What the counter's table promises: both events are self-transitions with their action. */
  ghost predicate CounterReady(m: Machine<Active, CountEvent, int>) {
    && Valid(m) && m.phase == Ready && !m.done && m.current == Some(Active)
    && TM.Get(m.transitions, Increment, Active) == Some(Next(Active, false, Some(Inc)))
    && TM.Get(m.transitions, Decrement, Active) == Some(Next(Active, false, Some(Dec)))
  }

  lemma CounterStep(m: Machine<Active, CountEvent, int>, event: CountEvent)
    requires CounterReady(m)
    ensures Send(m, event).1 == Ok(Active) && CounterReady(Send(m, event).0)
    ensures Send(m, event).0.context == if event == Increment then m.context + 1 else m.context - 1
  {
    if event == Increment {
      SendHit(m, event, Next(Active, false, Some(Inc)));
      SendHitContext(m, event, Next(Active, false, Some(Inc)));
    } else {
      SendHit(m, event, Next(Active, false, Some(Dec)));
      SendHitContext(m, event, Next(Active, false, Some(Dec)));
    }
  }

  /** Each event of a run moves the counter by one in its direction. */
  function Net(events: seq<CountEvent>): int {
    if events == [] then 0 else (if events[0] == Increment then 1 else -1) + Net(events[1..])
  }

  lemma {:induction false} CounterRun(m: Machine<Active, CountEvent, int>, events: seq<CountEvent>)
    requires CounterReady(m)
    ensures CounterReady(Run(m, events).0)
    ensures Run(m, events).0.context == m.context + Net(events)
    decreases |events|
  {
    if events != [] {
      CounterStep(m, events[0]);
      CounterRun(Send(m, events[0]).0, events[1..]);
    }
  }

  lemma NetSamples()
    ensures Net([Increment, Increment, Increment]) == 3
    ensures Net([Decrement, Decrement]) == -2
    ensures Net([Increment, Increment, Increment, Decrement]) == 2
  {
    var ups := [Increment, Increment, Increment];
    var downs := [Decrement, Decrement];
    var doc := [Increment, Increment, Increment, Decrement];
    assert ups[1..] == [Increment, Increment];
    assert ups[1..][1..] == [Increment];
    assert downs[1..] == [Decrement];
    assert doc[1..] == [Increment, Increment, Decrement];
    assert doc[1..][1..] == [Increment, Decrement];
    assert doc[1..][1..][1..] == [Decrement];
  }

  /** Three increments then two decrements, from any ready counter at zero. */
  lemma CounterUpDown(m: Machine<Active, CountEvent, int>)
    requires CounterReady(m) && m.context == 0
    ensures Run(m, [Increment, Increment, Increment]).0.context == 3
    ensures Run(Run(m, [Increment, Increment, Increment]).0, [Decrement, Decrement]).0.context == 1
  {
    NetSamples();
    CounterRun(m, [Increment, Increment, Increment]);
    CounterRun(Run(m, [Increment, Increment, Increment]).0, [Decrement, Decrement]);
  }

  /** `with_context_test`: three increments give 3, two decrements then give 1. */
  lemma CounterScenario()
    ensures var out := Run(Counter(), [Increment, Increment, Increment]);
      && out.0.context == 3
      && Run(out.0, [Decrement, Decrement]).0.context == 1
  {
    CounterUpDown(Counter());
  }

  /** Three increments and a decrement, from any ready counter at zero. */
  lemma CounterDocRun(m: Machine<Active, CountEvent, int>)
    requires CounterReady(m) && m.context == 0
    ensures Run(m, [Increment, Increment, Increment, Decrement]).0.context == 2
    ensures forall k | 0 <= k < 4 :: Run(m, [Increment, Increment, Increment, Decrement]).1[k].Ok?
  {
    NetSamples();
    CounterRun(m, [Increment, Increment, Increment, Decrement]);
    CounterRunOk(m, [Increment, Increment, Increment, Decrement]);
  }

  /** Every send of a run through a ready counter succeeds. */
  lemma {:induction false} CounterRunOk(m: Machine<Active, CountEvent, int>, events: seq<CountEvent>)
    requires CounterReady(m)
    ensures forall k | 0 <= k < |events| :: Run(m, events).1[k].Ok?
    decreases |events|
  {
    if events != [] {
      CounterStep(m, events[0]);
      CounterRunOk(Send(m, events[0]).0, events[1..]);
    }
  }

  /** The documentation example: three increments and a decrement all succeed and leave 2. */
  lemma CounterDocExample()
    ensures Run(Counter(), [Increment, Increment, Increment, Decrement]).0.context == 2
    ensures forall k | 0 <= k < 4 :: Run(Counter(), [Increment, Increment, Increment, Decrement]).1[k].Ok?
  {
    CounterDocRun(Counter());
  }

  // ---------------------------------------------------------------------
  // The global callback runs once per successful send
  // ---------------------------------------------------------------------

  /** `Machine::new().on_next(self_transition((), ())).on_transition(..).start(())`. */
  function Looping(): (m: Machine<(), (), ()>)
    ensures Valid(m) && m.phase == Ready && !m.done && m.hasCallback && m.log == []
    ensures TM.Get(m.transitions, (), ()) == Some(Next((), false, None))
  {
    var m0 := New<(), ()>();
    TM.EmptyGet<(), (), Next<(), (), ()>>();
    var m1 := OnNext(m0, T.SelfTransition<(), (), ()>((), ())).value;
    Start(OnTransition(m1), ())
  }

  /** Two sends through a ready one-state loop with a callback and an empty log. */
  lemma LoopTwice(m: Machine<(), (), ()>)
    requires Valid(m) && m.phase == Ready && !m.done && m.hasCallback && m.log == []
    requires TM.Get(m.transitions, (), ()) == Some(Next((), false, None))
    ensures Run(m, [(), ()]).1 == [Ok(()), Ok(())]
    ensures CountCallbacks(Run(m, [(), ()]).0.log) == 2
  {
    assert m.current.value == ();
    SendHit(m, (), Next((), false, None));
    var m1 := Send(m, ()).0;
    assert m1.current.value == ();
    SendHit(m1, (), Next((), false, None));
    assert [(), ()][1..] == [()];
    assert Run(m1, [()]).1 == [Ok(())];
    assert Run(m, [(), ()]).1 == [Ok(())] + Run(m1, [()]).1;
    RunCallbackCount(m, [(), ()]);
    var results: seq<Result<(), TransitionError>> := [Ok(()), Ok(())];
    assert CountOk(results) == 2 by {
      assert results[1..] == [Ok(())];
    }
  }

  /** `on_transition_test`: two sends, two callback calls. */
  lemma LoopingScenario()
    ensures var out := Run(Looping(), [(), ()]);
      && out.1 == [Ok(()), Ok(())]
      && CountCallbacks(out.0.log) == 2
  {
    LoopTwice(Looping());
  }

  // ---------------------------------------------------------------------
  // A transition's action runs once per successful send
  // ---------------------------------------------------------------------

  /** An action that leaves the unit context as it is; the test's counter lives outside the machine. */
  function Touch(cx: ContextMut<(), (), ()>): () {
    ()
  }

  /** `Machine::new().on_next(self_transition((), ()).action(..)).start(())`. */
  function ActionLooping(): (m: Machine<(), (), ()>)
    ensures Valid(m) && m.phase == Ready && !m.done && !m.hasCallback && m.log == []
    ensures TM.Get(m.transitions, (), ()) == Some(Next((), false, Some(Touch)))
  {
    var m0 := New<(), ()>();
    TM.EmptyGet<(), (), Next<(), (), ()>>();
    var b := T.WithAction(T.SelfTransition<(), (), ()>((), ()), Touch);
    Start(OnNext(m0, b).value, ())
  }

  /** Two sends through a ready one-state loop whose transition has an action and no callback. */
  lemma ActionTwice(m: Machine<(), (), ()>)
    requires Valid(m) && m.phase == Ready && !m.done && !m.hasCallback && m.log == []
    requires TM.Get(m.transitions, (), ()) == Some(Next((), false, Some(Touch)))
    ensures Run(m, [(), ()]).1 == [Ok(()), Ok(())]
    ensures var log := Run(m, [(), ()]).0.log;
      |log| == 2 && log[0].ActionCall? && log[1].ActionCall?
  {
    var n := Next((), false, Some(Touch));
    assert m.current.value == ();
    SendHit(m, (), n);
    SendHitInvocations(m, (), n);
    var m1 := Send(m, ()).0;
    assert m1.current.value == ();
    SendHit(m1, (), n);
    SendHitInvocations(m1, (), n);
    assert [(), ()][1..] == [()];
    assert Run(m1, [()]).1 == [Ok(())];
    assert Run(m, [(), ()]).1 == [Ok(())] + Run(m1, [()]).1;
  }

  /** `on_action_test`: two sends, two action calls. */
  lemma OnActionScenario()
    ensures Run(ActionLooping(), [(), ()]).1 == [Ok(()), Ok(())]
    ensures var log := Run(ActionLooping(), [(), ()]).0.log;
      |log| == 2 && log[0].ActionCall? && log[1].ActionCall?
  {
    ActionTwice(ActionLooping());
  }

  // ---------------------------------------------------------------------
  // A final transition ends the machine
  // ---------------------------------------------------------------------

  datatype Job = Running | Finished
  datatype JobEvent = Complete | Restart

  /** `Running --Complete--> Finished`, marked final, and `Finished --Restart--> Running`. */
  function JobMachine(): (m: Machine<Job, JobEvent, ()>)
    ensures Valid(m) && m.phase == Ready && m.current == Some(Running) && !m.done
    ensures TM.Get(m.transitions, Complete, Running) == Some(Next(Finished, true, None))
  {
    var m0 := New<Job, JobEvent>();
    TM.EmptyGet<Job, JobEvent, Next<Job, JobEvent, ()>>();
    var b1 := T.IsFinal(T.New<Job, JobEvent, ()>(Running, Finished, Complete));
    var m1 := OnNext(m0, b1).value;
    var b2 := T.New<Job, JobEvent, ()>(Finished, Running, Restart);
    OnNextFrame(m0, b1, Finished, Restart);
    var m2 := OnNext(m1, b2).value;
    OnNextFrame(m1, b2, Running, Complete);
    Start(m2, Running)
  }

  /** After the final transition `is_done()` holds and even a configured `Restart` fails with `Done`. */
  lemma JobScenario()
    ensures var (m1, r1) := Send(JobMachine(), Complete);
      && r1 == Ok(Running) && m1.current == Some(Finished) && IsDone(m1)
      && Send(m1, Restart) == (m1, Err(Done))
  {
    SendHit(JobMachine(), Complete, Next(Finished, true, None));
  }

  // ---------------------------------------------------------------------
  // Enumeration
  // ---------------------------------------------------------------------

  /** The table after registering `On --TurnOff--> Off` alone. */
  lemma FirstOffEntry()
    ensures TM.Insert(TM.Empty<Light, LightEvent, Light>(), TurnOff, On, Off).Some?
    ensures var m1 := TM.Insert(TM.Empty<Light, LightEvent, Light>(), TurnOff, On, Off).value;
      && TM.Valid(m1)
      && TM.Events(m1) == [TurnOff] && TM.States(m1) == [On]
      && !TM.Contains(m1, Off, TurnOff)
  {
    var m0 := TM.Empty<Light, LightEvent, Light>();
    TM.EmptyGet<Light, LightEvent, Light>();
    TM.InsertThenGet(m0, TurnOff, On, Off);
    TM.InsertEvents(m0, TurnOff, On, Off);
    TM.InsertStates(m0, TurnOff, On, Off);
    TM.InsertGetAt(m0, TurnOff, On, Off, Off, TurnOff);
  }

  /** Registering `Off --TurnOff--> Off` next to `On --TurnOff--> Off`. */
  lemma SecondOffEntry(m1: TM.TransitionMap<Light, LightEvent, Light>)
    requires TM.Valid(m1) && TM.Events(m1) == [TurnOff] && TM.States(m1) == [On]
    requires !TM.Contains(m1, Off, TurnOff)
    ensures TM.Insert(m1, TurnOff, Off, Off).Some?
    ensures TM.Events(TM.Insert(m1, TurnOff, Off, Off).value) == [TurnOff, TurnOff]
    ensures TM.States(TM.Insert(m1, TurnOff, Off, Off).value) == [On, Off]
  {
    TM.InsertThenGet(m1, TurnOff, Off, Off);
    TM.InsertEvents(m1, TurnOff, Off, Off);
    TM.InsertStates(m1, TurnOff, Off, Off);
  }

  /** `events()` repeats an event registered under two states; `states()` does not repeat. */
  lemma EventsRepeatAcrossStates()
    ensures var m0 := TM.Empty<Light, LightEvent, Light>();
      && TM.Insert(m0, TurnOff, On, Off).Some?
      && var m1 := TM.Insert(m0, TurnOff, On, Off).value;
      && TM.Insert(m1, TurnOff, Off, Off).Some?
      && var m2 := TM.Insert(m1, TurnOff, Off, Off).value;
      && TM.Events(m2) == [TurnOff, TurnOff]
      && TM.States(m2) == [On, Off]
  {
    FirstOffEntry();
    SecondOffEntry(TM.Insert(TM.Empty<Light, LightEvent, Light>(), TurnOff, On, Off).value);
  }
}

=== FILE: transition.dfy ===
/**
 The staged transition builder. Rust tracks the stage with zero-sized marker
 types (`Build` -> `HasFrom` -> `CanBuild`); here the stage is a field, and
 each stage-specific method requires the stage Rust's `impl` block is for.
 */
module Transitions {
  import opened Wrappers
  import opened Contexts

  datatype Stage = Build | HasFrom | CanBuild

  /** A finished transition descriptor, as `on_next` consumes it. */
  datatype Transition<!S, !E, !C> = Transition(
    from: S,
    to: S,
    event: E,
    isFinal: bool,
    action: Option<Action<S, E, C>>)

  datatype Builder<!S, !E, !C> = Builder(
    from: Option<S>,
    to: Option<S>,
    event: E,
    isFinal: bool,
    action: Option<Action<S, E, C>>,
    stage: Stage)

  /**
   What the marker types guarantee: a `Build` builder has no endpoints yet,
   a `HasFrom` builder has its source, and a `CanBuild` builder has both.
   */
  predicate Staged<S, E, C>(b: Builder<S, E, C>) {
    match b.stage
    case Build => b.from.None? && b.to.None?
    case HasFrom => b.from.Some? && b.to.None?
    case CanBuild => b.from.Some? && b.to.Some?
  }

  /** `into_transition`: its two unwraps are safe because the stage is `CanBuild`. */
  function IntoTransition<S, E, C>(b: Builder<S, E, C>): (t: Transition<S, E, C>)
    requires b.stage == CanBuild && Staged(b)
    ensures Some(t.from) == b.from && Some(t.to) == b.to
    ensures t.event == b.event && t.isFinal == b.isFinal && t.action == b.action
  {
    Transition(b.from.value, b.to.value, b.event, b.isFinal, b.action)
  }

  /** `Builder::new(from, to, event)`: ready to build, not final, no action. */
  function New<S, E, C>(from: S, to: S, event: E): (b: Builder<S, E, C>)
    ensures b.stage == CanBuild && Staged(b)
    ensures IntoTransition(b) == Transition(from, to, event, false, None)
  {
    Builder(Some(from), Some(to), event, false, None, CanBuild)
  }

  /** `Builder::when(event)` and the free function `when`. */
  function When<S, E, C>(event: E): (b: Builder<S, E, C>)
    ensures b.stage == Build && Staged(b)
    ensures b.event == event && !b.isFinal && b.action.None?
  {
    Builder(None, None, event, false, None, Build)
  }

  /** `Builder::self_transition(event, state)` and the free function of the same name. */
  function SelfTransition<S, E, C>(event: E, state: S): (b: Builder<S, E, C>)
    ensures b.stage == CanBuild && Staged(b)
    ensures IntoTransition(b) == Transition(state, state, event, false, None)
  {
    New(state, state, event)
  }

  /** `from(state)`: `Build` -> `HasFrom`; the target is (still) unset. */
  function From<S, E, C>(b: Builder<S, E, C>, state: S): (r: Builder<S, E, C>)
    requires b.stage == Build
    ensures r.stage == HasFrom && Staged(r)
    ensures r.from == Some(state)
    ensures r.event == b.event && r.isFinal == b.isFinal && r.action == b.action
  {
    Builder(Some(state), None, b.event, b.isFinal, b.action, HasFrom)
  }

  /** `to(state)`: `HasFrom` -> `CanBuild`; the source set by `from` is kept. */
  function To<S, E, C>(b: Builder<S, E, C>, state: S): (r: Builder<S, E, C>)
    requires b.stage == HasFrom && Staged(b)
    ensures r.stage == CanBuild && Staged(r)
    ensures IntoTransition(r) == Transition(b.from.value, state, b.event, b.isFinal, b.action)
  {
    Builder(b.from, Some(state), b.event, b.isFinal, b.action, CanBuild)
  }

  /** `is_final()`: marks the transition final and touches nothing else. */
  function IsFinal<S, E, C>(b: Builder<S, E, C>): (r: Builder<S, E, C>)
    requires b.stage == CanBuild && Staged(b)
    ensures r.stage == CanBuild && Staged(r)
    ensures IntoTransition(r) == IntoTransition(b).(isFinal := true)
  {
    b.(isFinal := true)
  }

  /** `action(f)`: installs the action and touches nothing else. */
  function WithAction<S, E, C>(b: Builder<S, E, C>, f: Action<S, E, C>): (r: Builder<S, E, C>)
    requires b.stage == CanBuild && Staged(b)
    ensures r.stage == CanBuild && Staged(r)
    ensures IntoTransition(r) == IntoTransition(b).(action := Some(f))
  {
    b.(action := Some(f))
  }

  /** Marking a transition final twice is the same as marking it once. */
  lemma IsFinalIdempotent<S, E, C>(b: Builder<S, E, C>)
    requires b.stage == CanBuild && Staged(b)
    ensures IsFinal(IsFinal(b)) == IsFinal(b)
  {
  }

  /** One call of the fluent API after construction. */
  datatype Call<!S, !E, !C> = CallFrom(state: S) | CallTo(state: S) | CallIsFinal | CallAction(f: Action<S, E, C>)

  /**
   Applies one call, or `None` when the builder's stage has no such method
   (a program Rust's type checker rejects).
   */
  function Apply<S, E, C>(b: Builder<S, E, C>, c: Call<S, E, C>): Option<Builder<S, E, C>>
  {
    match c
    case CallFrom(s) => if b.stage == Build then Some(From(b, s)) else None
    case CallTo(s) => if b.stage == HasFrom && Staged(b) then Some(To(b, s)) else None
    case CallIsFinal => if b.stage == CanBuild && Staged(b) then Some(IsFinal(b)) else None
    case CallAction(f) => if b.stage == CanBuild && Staged(b) then Some(WithAction(b, f)) else None
  }

  function ApplyAll<S, E, C>(b: Builder<S, E, C>, cs: seq<Call<S, E, C>>): Option<Builder<S, E, C>>
    decreases |cs|
  {
    if cs == [] then Some(b)
    else match Apply(b, cs[0])
      case None => None
      case Some(b') => ApplyAll(b', cs[1..])
  }

  /**
   Every chain of calls the stage discipline accepts, started from any
   constructor, yields a staged builder; so when the chain ends in
   `CanBuild`, `into_transition` never unwraps an absent endpoint.
   */
  lemma {:induction false} ApplyAllStaged<S, E, C>(b: Builder<S, E, C>, cs: seq<Call<S, E, C>>)
    requires Staged(b)
    requires ApplyAll(b, cs).Some?
    ensures Staged(ApplyAll(b, cs).value)
    ensures ApplyAll(b, cs).value.stage == CanBuild ==>
      ApplyAll(b, cs).value.from.Some? && ApplyAll(b, cs).value.to.Some?
    decreases |cs|
  {
    if cs != [] {
      var b' := Apply(b, cs[0]).value;
      ApplyAllStaged(b', cs[1..]);
    }
  }

  /**
   The stage discipline of the marker types alone: `from` takes `Build` to
   `HasFrom`, `to` takes `HasFrom` to `CanBuild`, and `is_final` and
   `action` stay in `CanBuild`; any other call does not type-check.
   */
  function StageStep<S, E, C>(st: Stage, c: Call<S, E, C>): Option<Stage> {
    match c
    case CallFrom(_) => if st == Build then Some(HasFrom) else None
    case CallTo(_) => if st == HasFrom then Some(CanBuild) else None
    case CallIsFinal => if st == CanBuild then Some(CanBuild) else None
    case CallAction(_) => if st == CanBuild then Some(CanBuild) else None
  }

  function StageAll<S, E, C>(st: Stage, cs: seq<Call<S, E, C>>): Option<Stage>
    decreases |cs|
  {
    if cs == [] then Some(st)
    else match StageStep(st, cs[0])
      case None => None
      case Some(st') => StageAll(st', cs[1..])
  }

  /**
   From any staged builder, a chain of calls goes through exactly when the
   marker types accept it, and it ends in the stage they predict.
   */
  lemma {:induction false} ApplyAllAccepts<S, E, C>(b: Builder<S, E, C>, cs: seq<Call<S, E, C>>)
    requires Staged(b)
    ensures ApplyAll(b, cs).Some? <==> StageAll(b.stage, cs).Some?
    ensures ApplyAll(b, cs).Some? ==> ApplyAll(b, cs).value.stage == StageAll(b.stage, cs).value
    decreases |cs|
  {
    if cs != [] {
      match Apply(b, cs[0])
      case None =>
      case Some(b') =>
        ApplyAllAccepts(b', cs[1..]);
    }
  }

  /** The chain `when(e).from(a).to(b)` builds the transition `a --e--> b`. */
  lemma WhenFromTo<S, E, C>(event: E, a: S, b: S)
    ensures ApplyAll(When<S, E, C>(event), [CallFrom(a), CallTo(b)]).Some?
    ensures ApplyAll(When<S, E, C>(event), [CallFrom(a), CallTo(b)]).value.stage == CanBuild
    ensures Staged(ApplyAll(When<S, E, C>(event), [CallFrom(a), CallTo(b)]).value)
    ensures IntoTransition(ApplyAll(When<S, E, C>(event), [CallFrom(a), CallTo(b)]).value) ==
      Transition(a, b, event, false, None)
  {
    var b1 := From(When<S, E, C>(event), a);
    assert ApplyAll(When<S, E, C>(event), [CallFrom(a), CallTo(b)]) == ApplyAll(b1, [CallTo(b)]);
    assert ApplyAll(b1, [CallTo(b)]) == ApplyAll(To(b1, b), []);
  }
}

=== FILE: transition_map.dfy ===
/**
 The transition table: an association list with one node per source state,
 each node holding its `(event, target)` entries in insertion order.
 Lookup is a two-level equality scan; inserting a second entry for the same
 `(from, event)` pair is rejected (Rust's `insert` panics).
 */
module TransitionMaps {
  import opened Wrappers

  /** One `(event, target)` entry of a node. */
  datatype Entry<E, T> = Entry(event: E, to: T)

  /** Every transition leaving the source state `from`, in insertion order. */
  datatype Node<S, E, T> = Node(from: S, next: seq<Entry<E, T>>)

  datatype TransitionMap<S, E, T> = TransitionMap(nodes: seq<Node<S, E, T>>)

  /** A registration request: `insert(event, from, to)`. */
  datatype Binding<S, E, T> = Binding(from: S, event: E, to: T)

  // ---------------------------------------------------------------------
  // Well-formedness
  // ---------------------------------------------------------------------

  predicate NoDuplicates<X(==)>(xs: seq<X>) {
    forall i, j | 0 <= i < j < |xs| :: xs[i] != xs[j]
  }

  predicate DistinctEvents<E(==), T>(entries: seq<Entry<E, T>>) {
    forall j, k | 0 <= j < k < |entries| :: entries[j].event != entries[k].event
  }

  /**
   The table invariant kept by `insert`: source states are pairwise distinct
   across nodes, and every node is non-empty with pairwise distinct events.
   */
  predicate ValidNodes<S(==), E(==), T>(nodes: seq<Node<S, E, T>>) {
    && (forall i, j | 0 <= i < j < |nodes| :: nodes[i].from != nodes[j].from)
    && (forall i | 0 <= i < |nodes| :: nodes[i].next != [] && DistinctEvents(nodes[i].next))
  }

  predicate Valid<S(==), E(==), T>(m: TransitionMap<S, E, T>) {
    ValidNodes(m.nodes)
  }

  /** `any(|x| x.event == event)` over one node. */
  predicate HasEvent<E(==), T>(entries: seq<Entry<E, T>>, e: E) {
    exists j | 0 <= j < |entries| :: entries[j].event == e
  }

  /** Some node for source `s` holds an entry for event `e`. */
  predicate HasPair<S(==), E(==), T>(nodes: seq<Node<S, E, T>>, s: S, e: E) {
    exists i | 0 <= i < |nodes| :: nodes[i].from == s && HasEvent(nodes[i].next, e)
  }

  predicate Contains<S(==), E(==), T>(m: TransitionMap<S, E, T>, s: S, e: E) {
    HasPair(m.nodes, s, e)
  }

  /** The table stores the entry `(s, e) -> t` somewhere. */
  ghost predicate Maps<S, E, T>(m: TransitionMap<S, E, T>, s: S, e: E, t: T) {
    exists i, j | 0 <= i < |m.nodes| && 0 <= j < |m.nodes[i].next| ::
      m.nodes[i].from == s && m.nodes[i].next[j] == Entry(e, t)
  }

  // ---------------------------------------------------------------------
  // Enumeration: states() and events()
  // ---------------------------------------------------------------------

  function StatesOf<S, E, T>(nodes: seq<Node<S, E, T>>): (r: seq<S>)
    ensures |r| == |nodes|
    ensures forall i | 0 <= i < |nodes| :: r[i] == nodes[i].from
  {
    if nodes == [] then [] else [nodes[0].from] + StatesOf(nodes[1..])
  }

  /** `states()`: one source state per node, in insertion order, never repeated. */
  function States<S(==), E(==), T>(m: TransitionMap<S, E, T>): (r: seq<S>)
    ensures |r| == |m.nodes|
    ensures forall i | 0 <= i < |m.nodes| :: r[i] == m.nodes[i].from
    ensures Valid(m) ==> NoDuplicates(r)
  {
    StatesOf(m.nodes)
  }

  /** The events of one node, in insertion order. */
  function EventsOf<E, T>(entries: seq<Entry<E, T>>): seq<E> {
    seq(|entries|, j requires 0 <= j < |entries| => entries[j].event)
  }

  /** Total number of entries over all nodes. */
  function Size<S, E, T>(nodes: seq<Node<S, E, T>>): nat {
    if nodes == [] then 0 else |nodes[0].next| + Size(nodes[1..])
  }

  /** The events of every node, node after node, each node in insertion order. */
  function AllEvents<S, E, T>(nodes: seq<Node<S, E, T>>): seq<E> {
    if nodes == [] then [] else EventsOf(nodes[0].next) + AllEvents(nodes[1..])
  }

  lemma {:induction false} AllEventsCount<S, E, T>(nodes: seq<Node<S, E, T>>)
    ensures |AllEvents(nodes)| == Size(nodes)
  {
    if nodes != [] {
      AllEventsCount(nodes[1..]);
    }
  }

  /** `events()`: one item per stored transition. */
  function Events<S, E, T>(m: TransitionMap<S, E, T>): (r: seq<E>)
    ensures |r| == Size(m.nodes)
  {
    AllEventsCount(m.nodes);
    AllEvents(m.nodes)
  }

  lemma {:induction false} InAllEvents<S, E, T>(nodes: seq<Node<S, E, T>>, e: E)
    ensures e in AllEvents(nodes) <==> exists i | 0 <= i < |nodes| :: HasEvent(nodes[i].next, e)
  {
    if nodes != [] {
      InAllEvents(nodes[1..], e);
      var here := EventsOf(nodes[0].next);
      assert e in here <==> HasEvent(nodes[0].next, e) by {
        if e in here {
          var j :| 0 <= j < |here| && here[j] == e;
          assert nodes[0].next[j].event == e;
        }
        if HasEvent(nodes[0].next, e) {
          var j :| 0 <= j < |nodes[0].next| && nodes[0].next[j].event == e;
          assert here[j] == e;
        }
      }
      if exists i | 0 <= i < |nodes| :: HasEvent(nodes[i].next, e) {
        var i :| 0 <= i < |nodes| && HasEvent(nodes[i].next, e);
        if i > 0 {
          assert HasEvent(nodes[1..][i - 1].next, e);
        }
      }
      if exists i | 0 <= i < |nodes[1..]| :: HasEvent(nodes[1..][i].next, e) {
        var i :| 0 <= i < |nodes[1..]| && HasEvent(nodes[1..][i].next, e);
        assert HasEvent(nodes[i + 1].next, e);
      }
    }
  }

  /** An event is enumerated exactly when some state has a transition on it. */
  lemma EventsListed<S, E, T>(m: TransitionMap<S, E, T>, e: E)
    ensures e in Events(m) <==> exists s :: Contains(m, s, e)
  {
    InAllEvents(m.nodes, e);
    if e in Events(m) {
      var i :| 0 <= i < |m.nodes| && HasEvent(m.nodes[i].next, e);
      assert Contains(m, m.nodes[i].from, e);
    }
  }

  // ---------------------------------------------------------------------
  // Lookup: get and get_mut
  // ---------------------------------------------------------------------

  /** First entry of one node with event `e`. */
  function Lookup<E(==), T>(entries: seq<Entry<E, T>>, e: E): (r: Option<T>)
    ensures r.None? <==> !HasEvent(entries, e)
    ensures r.Some? ==> exists j | 0 <= j < |entries| :: entries[j] == Entry(e, r.value)
  {
    if entries == [] then None
    else if entries[0].event == e then Some(entries[0].to)
    else Lookup(entries[1..], e)
  }

  /** `filter(from == s).flat_map(next).find(event == e)`. */
  function GetIn<S(==), E(==), T>(nodes: seq<Node<S, E, T>>, e: E, s: S): (r: Option<T>)
  {
    if nodes == [] then None
    else
      var here := if nodes[0].from == s then Lookup(nodes[0].next, e) else None;
      if here.Some? then here else GetIn(nodes[1..], e, s)
  }

  /** `get(event, from)`: absent exactly when no node for `s` has an entry for `e`. */
  function Get<S(==), E(==), T>(m: TransitionMap<S, E, T>, e: E, s: S): (r: Option<T>)
    ensures r.None? <==> !Contains(m, s, e)
    ensures r.Some? ==> Maps(m, s, e, r.value)
  {
    GetInSpec(m.nodes, e, s);
    GetIn(m.nodes, e, s)
  }

  lemma {:induction false} GetInSpec<S, E, T>(nodes: seq<Node<S, E, T>>, e: E, s: S)
    ensures GetIn(nodes, e, s).None? <==> !HasPair(nodes, s, e)
    ensures GetIn(nodes, e, s).Some? ==>
      exists i, j | 0 <= i < |nodes| && 0 <= j < |nodes[i].next| ::
        nodes[i].from == s && nodes[i].next[j] == Entry(e, GetIn(nodes, e, s).value)
  {
    if nodes != [] {
      GetInSpec(nodes[1..], e, s);
      if !(nodes[0].from == s && HasEvent(nodes[0].next, e)) {
        assert HasPair(nodes, s, e) <==> HasPair(nodes[1..], s, e) by {
          if HasPair(nodes, s, e) {
            var i :| 0 <= i < |nodes| && nodes[i].from == s && HasEvent(nodes[i].next, e);
            assert nodes[1..][i - 1] == nodes[i];
          }
        }
        if GetIn(nodes, e, s).Some? {
          var i, j :| 0 <= i < |nodes[1..]| && 0 <= j < |nodes[1..][i].next| &&
            nodes[1..][i].from == s && nodes[1..][i].next[j] == Entry(e, GetIn(nodes, e, s).value);
          assert nodes[i + 1] == nodes[1..][i];
        }
      }
    }
  }

  /** Position of the first entry of one node with event `e`. */
  function Position<E(==), T>(entries: seq<Entry<E, T>>, e: E): (r: Option<nat>)
    ensures r.Some? ==> r.value < |entries| && entries[r.value].event == e
    ensures r.None? <==> !HasEvent(entries, e)
  {
    if entries == [] then None
    else if entries[0].event == e then Some(0)
    else match Position(entries[1..], e)
      case Some(j) => Some(j + 1)
      case None => None
  }

  /** The location `(node, entry)` that `get_mut` lends out, found by the same scan. */
  function LocateIn<S(==), E(==), T>(nodes: seq<Node<S, E, T>>, e: E, s: S): (r: Option<(nat, nat)>)
    ensures r.Some? ==> r.value.0 < |nodes| && r.value.1 < |nodes[r.value.0].next|
    ensures r.Some? ==> nodes[r.value.0].from == s && nodes[r.value.0].next[r.value.1].event == e
  {
    if nodes == [] then None
    else
      var here := if nodes[0].from == s then Position(nodes[0].next, e) else None;
      if here.Some? then Some((0, here.value))
      else match LocateIn(nodes[1..], e, s)
        case Some(p) => Some((p.0 + 1, p.1))
        case None => None
  }

  /** `get_mut(event, from)`: the location of the stored target, if any. */
  function GetMut<S(==), E(==), T>(m: TransitionMap<S, E, T>, e: E, s: S): (r: Option<(nat, nat)>)
    ensures r.Some? ==> r.value.0 < |m.nodes| && r.value.1 < |m.nodes[r.value.0].next|
    ensures r.Some? ==> m.nodes[r.value.0].from == s && m.nodes[r.value.0].next[r.value.1].event == e
  {
    LocateIn(m.nodes, e, s)
  }

  /** The target stored at a location returned by `GetMut`. */
  function At<S, E, T>(m: TransitionMap<S, E, T>, loc: (nat, nat)): T
    requires loc.0 < |m.nodes| && loc.1 < |m.nodes[loc.0].next|
  {
    m.nodes[loc.0].next[loc.1].to
  }

  lemma {:induction false} PositionAgrees<E, T>(entries: seq<Entry<E, T>>, e: E)
    ensures Position(entries, e).None? <==> Lookup(entries, e).None?
    ensures Position(entries, e).Some? ==>
      Lookup(entries, e) == Some(entries[Position(entries, e).value].to)
  {
    if entries != [] && entries[0].event != e {
      PositionAgrees(entries[1..], e);
    }
  }

  lemma {:induction false} LocateAgrees<S, E, T>(nodes: seq<Node<S, E, T>>, e: E, s: S)
    ensures LocateIn(nodes, e, s).None? <==> GetIn(nodes, e, s).None?
    ensures LocateIn(nodes, e, s).Some? ==>
      GetIn(nodes, e, s) == Some(nodes[LocateIn(nodes, e, s).value.0].next[LocateIn(nodes, e, s).value.1].to)
  {
    if nodes != [] {
      PositionAgrees(nodes[0].next, e);
      LocateAgrees(nodes[1..], e, s);
    }
  }

  /** `get_mut` and `get` find the same entry. */
  lemma GetMutAgreesWithGet<S, E, T>(m: TransitionMap<S, E, T>, e: E, s: S)
    ensures GetMut(m, e, s).None? <==> Get(m, e, s).None?
    ensures GetMut(m, e, s).Some? ==> Get(m, e, s) == Some(At(m, GetMut(m, e, s).value))
  {
    LocateAgrees(m.nodes, e, s);
  }

  // ---------------------------------------------------------------------
  // Lookup in a well-formed table
  // ---------------------------------------------------------------------

  lemma {:induction false} GetInAbsent<S, E, T>(nodes: seq<Node<S, E, T>>, e: E, s: S)
    requires forall i | 0 <= i < |nodes| :: nodes[i].from != s
    ensures GetIn(nodes, e, s) == None
  {
    if nodes != [] {
      assert forall i | 0 <= i < |nodes[1..]| :: nodes[1..][i] == nodes[i + 1];
      GetInAbsent(nodes[1..], e, s);
    }
  }

  lemma {:induction false} GetInUnique<S, E, T>(nodes: seq<Node<S, E, T>>, e: E, s: S, i: nat)
    requires i < |nodes| && nodes[i].from == s
    requires forall k | 0 <= k < |nodes| && k != i :: nodes[k].from != s
    ensures GetIn(nodes, e, s) == Lookup(nodes[i].next, e)
  {
    assert forall k | 0 <= k < |nodes[1..]| :: nodes[1..][k] == nodes[k + 1];
    if i == 0 {
      GetInAbsent(nodes[1..], e, s);
    } else {
      GetInUnique(nodes[1..], e, s, i - 1);
    }
  }

  /** In a valid table, `get` reads the one node whose source is `s`. */
  lemma GetAt<S, E, T>(m: TransitionMap<S, E, T>, e: E, s: S, i: nat)
    requires Valid(m)
    requires i < |m.nodes| && m.nodes[i].from == s
    ensures Get(m, e, s) == Lookup(m.nodes[i].next, e)
  {
    GetInUnique(m.nodes, e, s, i);
  }

  lemma GetAbsent<S, E, T>(m: TransitionMap<S, E, T>, e: E, s: S)
    requires s !in States(m)
    ensures Get(m, e, s) == None
  {
    GetInAbsent(m.nodes, e, s);
  }

  /** In a valid table an entry `(s, e)` has exactly one target. */
  lemma MapsFunctional<S, E, T>(m: TransitionMap<S, E, T>, s: S, e: E, t1: T, t2: T)
    requires Valid(m)
    requires Maps(m, s, e, t1) && Maps(m, s, e, t2)
    ensures t1 == t2
  {
    var i1, j1 :| 0 <= i1 < |m.nodes| && 0 <= j1 < |m.nodes[i1].next| &&
      m.nodes[i1].from == s && m.nodes[i1].next[j1] == Entry(e, t1);
    var i2, j2 :| 0 <= i2 < |m.nodes| && 0 <= j2 < |m.nodes[i2].next| &&
      m.nodes[i2].from == s && m.nodes[i2].next[j2] == Entry(e, t2);
    assert i1 == i2;
    assert DistinctEvents(m.nodes[i1].next);
    assert j1 == j2;
  }

  // ---------------------------------------------------------------------
  // new and insert
  // ---------------------------------------------------------------------

  /** `TransitionMap::new()`: no nodes, so nothing to enumerate and nothing to find. */
  function Empty<S(==), E(==), T>(): (r: TransitionMap<S, E, T>)
    ensures Valid(r)
    ensures States(r) == [] && Events(r) == []
  {
    TransitionMap([])
  }

  /** A fresh table answers every lookup with `None`. */
  lemma EmptyGet<S, E, T>()
    ensures forall s: S, e: E :: Get(Empty<S, E, T>(), e, s) == None
  {
  }

  /** Index of the first node whose source is `s` (`iter_mut().find`). */
  function FindNode<S(==), E, T>(nodes: seq<Node<S, E, T>>, s: S): (r: Option<nat>)
    ensures r.Some? ==> r.value < |nodes| && nodes[r.value].from == s
    ensures r.None? <==> s !in StatesOf(nodes)
  {
    if nodes == [] then None
    else if nodes[0].from == s then Some(0)
    else match FindNode(nodes[1..], s)
      case Some(i) => Some(i + 1)
      case None => None
  }

  /**
   `insert(event, from, to)`. `None` stands for the panic raised when the
   node for `from` already holds an entry for `event`; otherwise the entry is
   appended to that node, or a new node is pushed when `from` is new.
   */
  function Insert<S(==), E(==), T>(m: TransitionMap<S, E, T>, event: E, from: S, to: T)
    : (r: Option<TransitionMap<S, E, T>>)
    requires Valid(m)
    ensures r.None? <==> Contains(m, from, event)
    ensures r.Some? ==> Valid(r.value)
    ensures r.Some? ==> Size(r.value.nodes) == Size(m.nodes) + 1
  {
    match FindNode(m.nodes, from)
    case Some(i) =>
      ContainsAt(m, from, event, i);
      if HasEvent(m.nodes[i].next, event) then None
      else
        var node := m.nodes[i].(next := m.nodes[i].next + [Entry(event, to)]);
        InsertIntoNodeValid(m.nodes, i, Entry(event, to));
        SizeUpdate(m.nodes, i, node);
        Some(TransitionMap(m.nodes[i := node]))
    case None =>
      PushNodeValid(m.nodes, Node(from, [Entry(event, to)]));
      SizeAppend(m.nodes, Node(from, [Entry(event, to)]));
      Some(TransitionMap(m.nodes + [Node(from, [Entry(event, to)])]))
  }

  /** In a well-formed table, the pairs for `s` are exactly the events of the one node for `s`. */
  lemma ContainsAt<S, E, T>(m: TransitionMap<S, E, T>, s: S, e: E, i: nat)
    requires Valid(m) && i < |m.nodes| && m.nodes[i].from == s
    ensures Contains(m, s, e) <==> HasEvent(m.nodes[i].next, e)
  {
    if Contains(m, s, e) {
      var k :| 0 <= k < |m.nodes| && m.nodes[k].from == s && HasEvent(m.nodes[k].next, e);
      assert k == i;
    }
  }

  /** Pushing a one-entry node for a new source state keeps the table well formed. */
  lemma PushNodeValid<S, E, T>(nodes: seq<Node<S, E, T>>, n: Node<S, E, T>)
    requires ValidNodes(nodes) && n.from !in StatesOf(nodes) && |n.next| == 1
    ensures ValidNodes(nodes + [n])
  {
    var nodes' := nodes + [n];
    forall i, j | 0 <= i < j < |nodes'|
      ensures nodes'[i].from != nodes'[j].from
    {
      if j == |nodes| {
        assert StatesOf(nodes)[i] == nodes[i].from;
      } else {
        assert nodes'[i] == nodes[i] && nodes'[j] == nodes[j];
      }
    }
    forall i | 0 <= i < |nodes'|
      ensures nodes'[i].next != [] && DistinctEvents(nodes'[i].next)
    {
      if i < |nodes| {
        assert nodes'[i] == nodes[i];
      }
    }
  }

  lemma InsertIntoNodeValid<S, E, T>(nodes: seq<Node<S, E, T>>, i: nat, x: Entry<E, T>)
    requires ValidNodes(nodes) && i < |nodes|
    requires !HasEvent(nodes[i].next, x.event)
    ensures ValidNodes(nodes[i := nodes[i].(next := nodes[i].next + [x])])
  {
    var nodes' := nodes[i := nodes[i].(next := nodes[i].next + [x])];
    var next' := nodes'[i].next;
    forall j, k | 0 <= j < k < |next'|
      ensures next'[j].event != next'[k].event
    {
      if k == |next'| - 1 {
        assert nodes[i].next[j].event != x.event;
      } else {
        assert next'[j] == nodes[i].next[j] && next'[k] == nodes[i].next[k];
      }
    }
  }

  lemma {:induction false} SizeAppend<S, E, T>(nodes: seq<Node<S, E, T>>, n: Node<S, E, T>)
    ensures Size(nodes + [n]) == Size(nodes) + |n.next|
  {
    if nodes != [] {
      assert (nodes + [n])[1..] == nodes[1..] + [n];
      SizeAppend(nodes[1..], n);
    }
  }

  lemma {:induction false} SizeUpdate<S, E, T>(nodes: seq<Node<S, E, T>>, i: nat, n: Node<S, E, T>)
    requires i < |nodes|
    ensures Size(nodes[i := n]) == Size(nodes) - |nodes[i].next| + |n.next|
  {
    if i > 0 {
      assert nodes[i := n][1..] == nodes[1..][i - 1 := n];
      SizeUpdate(nodes[1..], i - 1, n);
    }
  }

  // ---------------------------------------------------------------------
  // What insert does to get, states() and events()
  // ---------------------------------------------------------------------

  lemma {:induction false} LookupAppend<E, T>(entries: seq<Entry<E, T>>, x: Entry<E, T>, e: E)
    ensures Lookup(entries + [x], e) ==
      if HasEvent(entries, e) then Lookup(entries, e)
      else if x.event == e then Some(x.to) else None
  {
    if entries != [] {
      assert (entries + [x])[1..] == entries[1..] + [x];
      LookupAppend(entries[1..], x, e);
    }
  }

  /** Lookup after appending an entry to the node at index `i`. */
  lemma GetAfterAppendEntry<S, E, T>(m: TransitionMap<S, E, T>, m': TransitionMap<S, E, T>, i: nat, x: Entry<E, T>, s: S, e: E)
    requires Valid(m) && Valid(m') && i < |m.nodes|
    requires !HasEvent(m.nodes[i].next, x.event)
    requires m'.nodes == m.nodes[i := m.nodes[i].(next := m.nodes[i].next + [x])]
    ensures Get(m', e, s) == if s == m.nodes[i].from && e == x.event then Some(x.to) else Get(m, e, s)
  {
    if s in States(m) {
      var k :| 0 <= k < |m.nodes| && m.nodes[k].from == s;
      GetAt(m, e, s, k);
      GetAt(m', e, s, k);
      if k == i {
        LookupAppend(m.nodes[k].next, x, e);
      }
    } else {
      GetAbsent(m, e, s);
      GetAbsent(m', e, s);
    }
  }

  /** Lookup after pushing a node for a new source state. */
  lemma GetAfterAppendNode<S, E, T>(m: TransitionMap<S, E, T>, m': TransitionMap<S, E, T>, from: S, x: Entry<E, T>, s: S, e: E)
    requires Valid(m) && Valid(m') && from !in States(m)
    requires m'.nodes == m.nodes + [Node(from, [x])]
    ensures Get(m', e, s) == if s == from && e == x.event then Some(x.to) else Get(m, e, s)
  {
    if s in States(m) {
      var k :| 0 <= k < |m.nodes| && m.nodes[k].from == s;
      GetAt(m, e, s, k);
      GetAt(m', e, s, k);
    } else if s == from {
      GetAt(m', e, s, |m.nodes|);
      GetAbsent(m, e, s);
      assert [x][1..] == [];
    } else {
      GetAbsent(m, e, s);
      GetAbsent(m', e, s);
    }
  }

  /** What a successful insert does to one lookup. */
  lemma InsertGetAt<S, E, T>(m: TransitionMap<S, E, T>, event: E, from: S, to: T, s: S, e: E)
    requires Valid(m) && Insert(m, event, from, to).Some?
    ensures Get(Insert(m, event, from, to).value, e, s) ==
      if s == from && e == event then Some(to) else Get(m, e, s)
  {
    var m' := Insert(m, event, from, to).value;
    match FindNode(m.nodes, from)
    case Some(i) =>
      GetAfterAppendEntry(m, m', i, Entry(event, to), s, e);
    case None =>
      GetAfterAppendNode(m, m', from, Entry(event, to), s, e);
  }

  /**
   After a successful insert the new pair maps to `to`, and every other pair
   maps to what it mapped to before.
   */
  lemma InsertGet<S, E, T>(m: TransitionMap<S, E, T>, event: E, from: S, to: T)
    requires Valid(m) && Insert(m, event, from, to).Some?
    ensures forall s: S, e: E ::
      Get(Insert(m, event, from, to).value, e, s) ==
        if s == from && e == event then Some(to) else Get(m, e, s)
  {
    forall s: S, e: E
      ensures Get(Insert(m, event, from, to).value, e, s) ==
        if s == from && e == event then Some(to) else Get(m, e, s)
    {
      InsertGetAt(m, event, from, to, s, e);
    }
  }

  /** A pair registered by a successful insert is found; the old contents stay found. */
  lemma InsertThenGet<S, E, T>(m: TransitionMap<S, E, T>, event: E, from: S, to: T)
    requires Valid(m) && !Contains(m, from, event)
    ensures Insert(m, event, from, to).Some?
    ensures Get(Insert(m, event, from, to).value, event, from) == Some(to)
  {
    InsertGet(m, event, from, to);
  }

  /** `states()` gains the source state at the end exactly when it was new. */
  lemma InsertStates<S, E, T>(m: TransitionMap<S, E, T>, event: E, from: S, to: T)
    requires Valid(m) && Insert(m, event, from, to).Some?
    ensures States(Insert(m, event, from, to).value) ==
      if from in States(m) then States(m) else States(m) + [from]
  {
  }

  lemma {:induction false} AllEventsConcat<S, E, T>(a: seq<Node<S, E, T>>, b: seq<Node<S, E, T>>)
    ensures AllEvents(a + b) == AllEvents(a) + AllEvents(b)
  {
    if a == [] {
      assert a + b == b;
    } else {
      assert (a + b)[0] == a[0];
      assert (a + b)[1..] == a[1..] + b;
      AllEventsConcat(a[1..], b);
      assert AllEvents(a + b) == EventsOf(a[0].next) + (AllEvents(a[1..]) + AllEvents(b));
    }
  }

  lemma EventsOfAppend<E, T>(entries: seq<Entry<E, T>>, x: Entry<E, T>)
    ensures EventsOf(entries + [x]) == EventsOf(entries) + [x.event]
  {
    var l, r := EventsOf(entries + [x]), EventsOf(entries) + [x.event];
    assert |l| == |r|;
    forall j | 0 <= j < |l| ensures l[j] == r[j] {
      if j < |entries| { assert (entries + [x])[j] == entries[j]; }
    }
  }

  /** The enumeration of one node on its own is that node's events. */
  lemma AllEventsSingle<S, E, T>(n: Node<S, E, T>)
    ensures AllEvents([n]) == EventsOf(n.next)
  {
    assert [n][1..] == [];
  }

  /**
   Appending an entry to node `i` puts its event right after the events of
   nodes `0..i` (node `i`'s own old events last among them) and before the
   events of every later node.
   */
  lemma SpliceEvents<S, E, T>(nodes: seq<Node<S, E, T>>, i: nat, x: Entry<E, T>)
    requires i < |nodes|
    ensures AllEvents(nodes[..i + 1]) == AllEvents(nodes[..i]) + EventsOf(nodes[i].next)
    ensures AllEvents(nodes) == AllEvents(nodes[..i + 1]) + AllEvents(nodes[i + 1..])
    ensures AllEvents(nodes[i := nodes[i].(next := nodes[i].next + [x])]) ==
      AllEvents(nodes[..i + 1]) + [x.event] + AllEvents(nodes[i + 1..])
  {
    var n' := nodes[i].(next := nodes[i].next + [x]);
    var nodes' := nodes[i := n'];
    assert nodes[..i + 1] == nodes[..i] + [nodes[i]];
    AllEventsConcat(nodes[..i], [nodes[i]]);
    AllEventsSingle(nodes[i]);
    assert nodes[..i + 1] + nodes[i + 1..] == nodes;
    AllEventsConcat(nodes[..i + 1], nodes[i + 1..]);
    assert nodes' == (nodes[..i] + [n']) + nodes[i + 1..];
    AllEventsConcat(nodes[..i] + [n'], nodes[i + 1..]);
    AllEventsConcat(nodes[..i], [n']);
    AllEventsSingle(n');
    EventsOfAppend(nodes[i].next, x);
  }

  /** `events()` after an insert into the existing node `i` for `from`. */
  lemma InsertEventsAt<S, E, T>(m: TransitionMap<S, E, T>, event: E, from: S, to: T, i: nat)
    requires Valid(m) && Insert(m, event, from, to).Some?
    requires FindNode(m.nodes, from) == Some(i)
    ensures Events(m) == AllEvents(m.nodes[..i + 1]) + AllEvents(m.nodes[i + 1..])
    ensures AllEvents(m.nodes[..i + 1]) == AllEvents(m.nodes[..i]) + EventsOf(m.nodes[i].next)
    ensures Events(Insert(m, event, from, to).value) ==
      AllEvents(m.nodes[..i + 1]) + [event] + AllEvents(m.nodes[i + 1..])
  {
    assert Insert(m, event, from, to).value.nodes ==
      m.nodes[i := m.nodes[i].(next := m.nodes[i].next + [Entry(event, to)])];
    SpliceEvents(m.nodes, i, Entry(event, to));
  }

  /** `events()` after an insert that pushes a node for a new source state. */
  lemma InsertEventsNew<S, E, T>(m: TransitionMap<S, E, T>, event: E, from: S, to: T)
    requires Valid(m) && Insert(m, event, from, to).Some?
    requires FindNode(m.nodes, from) == None
    ensures Events(Insert(m, event, from, to).value) == Events(m) + [event]
  {
    var n := Node(from, [Entry(event, to)]);
    assert Insert(m, event, from, to).value.nodes == m.nodes + [n];
    AllEventsConcat(m.nodes, [n]);
    AllEventsSingle(n);
  }

  /**
   `events()` after an insert: when the source state already has a node `i`,
   the new event comes right after that node's old events and before the
   events of every later node; when the node is new, it comes last.
   */
  lemma InsertEvents<S, E, T>(m: TransitionMap<S, E, T>, event: E, from: S, to: T)
    requires Valid(m) && Insert(m, event, from, to).Some?
    ensures from in States(m) ==>
      var i := FindNode(m.nodes, from).value;
      && Events(m) == AllEvents(m.nodes[..i + 1]) + AllEvents(m.nodes[i + 1..])
      && AllEvents(m.nodes[..i + 1]) == AllEvents(m.nodes[..i]) + EventsOf(m.nodes[i].next)
      && Events(Insert(m, event, from, to).value) ==
         AllEvents(m.nodes[..i + 1]) + [event] + AllEvents(m.nodes[i + 1..])
    ensures from !in States(m) ==> Events(Insert(m, event, from, to).value) == Events(m) + [event]
  {
    match FindNode(m.nodes, from)
    case Some(i) => InsertEventsAt(m, event, from, to, i);
    case None => InsertEventsNew(m, event, from, to);
  }

  // ---------------------------------------------------------------------
  // Building a table from a list of registrations
  // ---------------------------------------------------------------------

  predicate DistinctKeys<S(==), E(==), T>(bs: seq<Binding<S, E, T>>) {
    forall i, j | 0 <= i < j < |bs| :: bs[i].from != bs[j].from || bs[i].event != bs[j].event
  }

  /** None of the registrations is already in the table. */
  predicate Fresh<S(==), E(==), T>(m: TransitionMap<S, E, T>, bs: seq<Binding<S, E, T>>) {
    forall k | 0 <= k < |bs| :: !Contains(m, bs[k].from, bs[k].event)
  }

  /** Reference lookup over a registration list: the first binding for `(s, e)`. */
  function FindBinding<S(==), E(==), T>(bs: seq<Binding<S, E, T>>, s: S, e: E): Option<T> {
    if bs == [] then None
    else if bs[0].from == s && bs[0].event == e then Some(bs[0].to)
    else FindBinding(bs[1..], s, e)
  }

  /** Insert every registration in order; `None` if any insert panics. */
  function InsertAll<S(==), E(==), T>(m: TransitionMap<S, E, T>, bs: seq<Binding<S, E, T>>)
    : (r: Option<TransitionMap<S, E, T>>)
    requires Valid(m)
    ensures r.Some? ==> Valid(r.value)
    decreases |bs|
  {
    if bs == [] then Some(m)
    else match Insert(m, bs[0].event, bs[0].from, bs[0].to)
      case None => None
      case Some(m') => InsertAll(m', bs[1..])
  }

  /** Some registration in `bs` is for the pair `(s, e)`. */
  predicate KeyIn<S(==), E(==), T>(bs: seq<Binding<S, E, T>>, s: S, e: E) {
    exists k | 0 <= k < |bs| :: bs[k].from == s && bs[k].event == e
  }

  lemma FreshAfterInsert<S, E, T>(m: TransitionMap<S, E, T>, b: Binding<S, E, T>, rest: seq<Binding<S, E, T>>)
    requires Valid(m) && Insert(m, b.event, b.from, b.to).Some?
    ensures Fresh(Insert(m, b.event, b.from, b.to).value, rest) <==>
      Fresh(m, rest) && !KeyIn(rest, b.from, b.event)
  {
    var m' := Insert(m, b.event, b.from, b.to).value;
    forall k | 0 <= k < |rest|
      ensures Contains(m', rest[k].from, rest[k].event) <==>
        Contains(m, rest[k].from, rest[k].event) || (rest[k].from == b.from && rest[k].event == b.event)
    {
      InsertGetAt(m, b.event, b.from, b.to, rest[k].from, rest[k].event);
    }
  }

  lemma DistinctFreshCons<S, E, T>(m: TransitionMap<S, E, T>, bs: seq<Binding<S, E, T>>)
    requires bs != []
    ensures DistinctKeys(bs) && Fresh(m, bs) <==>
      && !Contains(m, bs[0].from, bs[0].event)
      && !KeyIn(bs[1..], bs[0].from, bs[0].event)
      && DistinctKeys(bs[1..]) && Fresh(m, bs[1..])
  {
    var rest := bs[1..];
    assert forall k | 0 <= k < |rest| :: rest[k] == bs[k + 1];
    if !Contains(m, bs[0].from, bs[0].event) && !KeyIn(rest, bs[0].from, bs[0].event) &&
      DistinctKeys(rest) && Fresh(m, rest)
    {
      forall i, j | 0 <= i < j < |bs| ensures bs[i].from != bs[j].from || bs[i].event != bs[j].event {
        if i > 0 { assert bs[i] == rest[i - 1] && bs[j] == rest[j - 1]; }
        else { assert bs[j] == rest[j - 1]; }
      }
    }
  }

  /**
   Registering a list succeeds exactly when its keys are pairwise distinct and
   none is already in the table.
   */
  lemma {:induction false} InsertAllSucceeds<S, E, T>(m: TransitionMap<S, E, T>, bs: seq<Binding<S, E, T>>)
    requires Valid(m)
    ensures InsertAll(m, bs).Some? <==> DistinctKeys(bs) && Fresh(m, bs)
    decreases |bs|
  {
    if bs != [] {
      DistinctFreshCons(m, bs);
      var b := bs[0];
      match Insert(m, b.event, b.from, b.to)
      case None =>
      case Some(m') =>
        FreshAfterInsert(m, b, bs[1..]);
        InsertAllSucceeds(m', bs[1..]);
    }
  }

  lemma {:induction false} FindBindingKeyIn<S, E, T>(bs: seq<Binding<S, E, T>>, s: S, e: E)
    ensures FindBinding(bs, s, e).Some? <==> KeyIn(bs, s, e)
  {
    if bs != [] {
      FindBindingKeyIn(bs[1..], s, e);
      assert forall k | 0 <= k < |bs[1..]| :: bs[1..][k] == bs[k + 1];
      if KeyIn(bs, s, e) && !(bs[0].from == s && bs[0].event == e) {
        var k :| 0 <= k < |bs| && bs[k].from == s && bs[k].event == e;
        assert bs[1..][k - 1] == bs[k];
      }
    }
  }

  lemma {:induction false} InsertAllGetAt<S, E, T>(m: TransitionMap<S, E, T>, bs: seq<Binding<S, E, T>>, s: S, e: E)
    requires Valid(m) && InsertAll(m, bs).Some?
    ensures Get(InsertAll(m, bs).value, e, s) ==
      if FindBinding(bs, s, e).Some? then FindBinding(bs, s, e) else Get(m, e, s)
    decreases |bs|
  {
    if bs != [] {
      var b := bs[0];
      var r := InsertAll(m, bs).value;
      var m' := Insert(m, b.event, b.from, b.to).value;
      assert InsertAll(m, bs) == InsertAll(m', bs[1..]);
      InsertAllGetAt(m', bs[1..], s, e);
      assert Get(r, e, s) == if FindBinding(bs[1..], s, e).Some? then FindBinding(bs[1..], s, e) else Get(m', e, s);
      InsertGetAt(m, b.event, b.from, b.to, s, e);
      if s == b.from && e == b.event {
        InsertAllSucceeds(m', bs[1..]);
        FindBindingKeyIn(bs[1..], s, e);
      } else {
        assert FindBinding(bs, s, e) == FindBinding(bs[1..], s, e);
        assert Get(m', e, s) == Get(m, e, s);
      }
    }
  }

  /**
   A table built by registering a list answers every lookup as the list does
   (its first binding for the pair), falling back to the original table.
   */
  lemma InsertAllGet<S, E, T>(m: TransitionMap<S, E, T>, bs: seq<Binding<S, E, T>>)
    requires Valid(m) && InsertAll(m, bs).Some?
    ensures forall s: S, e: E ::
      Get(InsertAll(m, bs).value, e, s) ==
        if FindBinding(bs, s, e).Some? then FindBinding(bs, s, e) else Get(m, e, s)
  {
    forall s: S, e: E
      ensures Get(InsertAll(m, bs).value, e, s) ==
        if FindBinding(bs, s, e).Some? then FindBinding(bs, s, e) else Get(m, e, s)
    {
      InsertAllGetAt(m, bs, s, e);
    }
  }
}

=== FILE: wrappers.dfy ===
/** Rust's `Option` and `Result`, shared by the whole model. */
module Wrappers {

  /** Rust's `Option<T>`. */
  datatype Option<+T> = None | Some(value: T)

  /** Rust's `Result<T, E>`. */
  datatype Result<+T, +E> = Ok(value: T) | Err(error: E)
}
